=== FILE: README.md ===
# CV site API routes — a Dafny model

This project models the two server-side request handlers of a personal CV
web site built on Next.js:

- `POST /api/chat` is a retrieval-augmented recruiter assistant. It checks
  that the OpenAI and Pinecone API keys are configured and reads the
  visitor's `message`. It embeds the message with `text-embedding-ada-002`
  and queries the `cv-data-2` Pinecone index for the top 3 matches with
  metadata. Each match's `_node_content` is a JSON text, and the handler
  extracts its `text` field. The truthy values among them are joined with
  blank lines into a grounding context. That context is spliced into a fixed
  system prompt for a `gpt-4` completion at temperature 0 with at most 500
  tokens, and the first choice's content is returned.
- `POST /api/contact` is a contact form backed by Resend. It first sends a
  fixed test email as a preflight check. It then reads `name`, `email` and
  `message` from the body, rejects an incomplete form with 400, and
  otherwise sends one HTML email that embeds the three fields.

Each handler is a pure function from the server state and the results of
the outside calls to an `Outcome`. An `Outcome` holds the HTTP response
(status plus JSON body) and a trace of the outside interactions made, in
order.

The outside world is supplied as oracle values in the request:
- whether the body parses;
- what the embedding, query and completion calls return or throw;
- `JSON.parse` as a function `string -> Option<Value>`;
- what each Resend send resolves to.

The JavaScript semantics the handlers rely on are written out in module
`Js`:
- truthiness (`!v`);
- property reads that throw on null or undefined;
- optional chaining;
- `String(v)`, which throws a TypeError for an object carrying its own
  `toString` key (as `JSON.parse` can produce);
- `Array.prototype.join`, which throws when converting an element does.

Layout:

| file | module | content |
|---|---|---|
| wrappers.dfy | Wrappers | `Option` |
| js.dfy | Js | JSON values, truthiness, property access, `String`, `join` and its laws |
| http.dfy | Http | request bodies, JSON responses, the shared catch-all error |
| precedence.dfy | Precedence | "the first failing stage decides", generic over the stages |
| seqs.dfy | Seqs | `FlatMap` and its laws |
| chat.dfy | ChatRoute | module load, configuration gate, context extraction, the chat handler |
| chat_properties.dfy | ChatProperties | chat error precedence against a reference table; context laws |
| contact.dfy | ContactRoute | preflight, form validation, the email, the contact handler |
| contact_properties.dfy | ContactProperties | contact error precedence against a reference table; email layout |

Error precedence is stated in both properties modules against an
independent reference. The reference lists the handler's stages in order,
gives each one a failure condition and an error response, and lets the
first failing stage decide (`Precedence.FirstFailing`). The lemma
`PostFollowsPrecedence` proves that the handler agrees with this table on
every input.

`getEmbedding` is awaited inside the retrieval `try`
(src/app/api/chat/route.ts:62-68), so any embedding failure is answered with
the retrieval error "Failed to retrieve context from Pinecone. …", not with
the catch-all (`ChatProperties.EmbeddingFailureIsRetrievalFailure`). The
`join` that builds the context sits in the same `try`: a surviving text that
`String` cannot convert also gives the retrieval error, and no completion is
requested (`ChatProperties.UnconvertibleTextFailsRetrieval`). In the contact
route the subject and HTML templates convert the three fields before the
real send; a field that cannot be converted reaches the catch-all after
only the test email (`ContactProperties.UnconvertibleNameIsUnexpected`).

One edge case is modelled as written. `.filter(Boolean)` drops falsy
extracted values, not values that render as empty. So a `text` field
holding an empty array survives the filter and renders as "". The context
then ends in a dangling "\n\n" (`ChatProperties.EmptyArrayTextLeavesSeparator`).
For the string texts the index actually stores, no stray separator can
appear (`ChatProperties.ContextHasNoStraySeparator`).

## Model

| member | source | states |
|---|---|---|
| ChatRoute.MissingKeys | src/app/api/chat/route.ts:11-13 | An entry name is reported iff its value is unset or empty; no more names than entries. |
| ChatRoute.MissingVars | src/app/api/chat/route.ts:6-13 | `OPENAI_API_KEY` is listed iff that key is unset or empty, and likewise `PINECONE_API_KEY`; when both are missing, OpenAI's comes first (declaration order). |
| ChatRoute.Boot | src/app/api/chat/route.ts:15-39 | All three clients exist iff no variable is missing and no constructor threw; with a variable missing, no client is constructed. |
| ChatRoute.MissingEnvMessage | src/app/api/chat/route.ts:46 | The configuration error starts with the fixed prefix, followed by the single missing name, or by both names separated by ", ". |
| ChatRoute.MessageOf | src/app/api/chat/route.ts:51 | Destructuring `message` fails exactly for an unparsable body or a JSON null body; otherwise the message is the body's `message` property as read. |
| ChatRoute.Fragment | src/app/api/chat/route.ts:73-82 | The per-match callback never throws; it yields either a truthy value or the empty string. |
| ChatRoute.Survivor | src/app/api/chat/route.ts:72-83 | After `filter(Boolean)`, a match leaves at most one value, leaves one iff its fragment is truthy, and that value is the fragment. |
| ChatRoute.Survivors | src/app/api/chat/route.ts:72-83 | Over all matches, only truthy values remain, at most one per match. |
| ChatRoute.Context | src/app/api/chat/route.ts:72-84 | A query response without `matches`, or matches that leave nothing, gives the empty context. |
| ChatRoute.SystemPrompt | src/app/api/chat/route.ts:103-107 | The system prompt is the fixed instruction followed by the context; both can be read back from it. |
| ChatRoute.Completion | src/app/api/chat/route.ts:98-116 | The completion request uses `gpt-4` with temperature 0 and 500 max tokens. It has exactly two turns: a system turn whose text is the fixed instruction that limits answers to the CV, followed by the context, then the user's message unchanged. |
| ChatRoute.Post | src/app/api/chat/route.ts:41-135 | The configuration gate answers before anything is read. Outside calls happen in the fixed order, each at most once. The embedding is requested exactly when there is a message and the clients are initialised, and the index is queried exactly when, in addition, an embedding came back. Generation is called iff retrieval succeeded, which includes building the context without a throw. Status 200 holds iff every stage succeeded, and then the body is the first choice's content. Every other status is 500 with an error body. The exact arguments of each call are pinned down (embedding model, index `cv-data-2`, topK 3, metadata included). |
| ChatProperties.PostFollowsPrecedence | src/app/api/chat/route.ts:41-135 | On every input, the chat response equals the reference table: configuration, body, initialisation, retrieval, generation; the first failing stage decides. |
| ChatProperties.EarlyStagesDecide | src/app/api/chat/route.ts:44-58 | The precedence agrees when the configuration, body or initialisation check fails. |
| ChatProperties.RetrievalDecides | src/app/api/chat/route.ts:60-93 | The precedence agrees when the local checks pass and retrieval fails. |
| ChatProperties.GenerationDecides | src/app/api/chat/route.ts:95-127 | The precedence agrees when only generation fails. |
| ChatProperties.NoStageFails | src/app/api/chat/route.ts:118-120 | With no failing stage, the response is 200 with the first choice's content. |
| ChatProperties.MissingEnvMessageText | src/app/api/chat/route.ts:44-49 | The configuration error names exactly the missing keys, in declaration order, separated by ", ". |
| ChatProperties.MissingVarsGate | src/app/api/chat/route.ts:44-49 | After module load with a key missing, every request gets that 500 error and no interaction happens. |
| ChatProperties.MissingVarsIgnoreRequest | src/app/api/chat/route.ts:44-49 | While a key is missing, two requests always get the same outcome. |
| ChatProperties.InitFaultGate | src/app/api/chat/route.ts:20-58 | If a client constructor threw, a readable request gets the initialisation error after only the body read. |
| ChatProperties.MalformedBodyIsUnexpected | src/app/api/chat/route.ts:128-133 | An unreadable body gives the catch-all 500, whether or not the clients exist. |
| ChatProperties.RetrievalFailureSkipsGeneration | src/app/api/chat/route.ts:62-93 | The retrieval error is returned iff the earlier stages passed and retrieval did not succeed: the embedding, the query or the context join failed; it is never followed by a completion call. |
| ChatProperties.MessagesDiffer | src/app/api/chat/route.ts:44-133 | The retrieval text differs from each of the configuration, initialisation, generation and catch-all texts. |
| ChatProperties.EmbeddingFailureIsRetrievalFailure | src/app/api/chat/route.ts:62-68 | A throwing embedding call gives the retrieval error, and the index is never queried. |
| ChatProperties.GenerationFailure | src/app/api/chat/route.ts:96-126 | After a successful retrieval, a failing completion gives the generation error after all four interactions. |
| ChatProperties.SurvivorsConcat | src/app/api/chat/route.ts:72-83 | Extraction is compositional: the texts from two runs of matches are the first run's texts followed by the second's. |
| ChatProperties.SurvivorsOfOne | src/app/api/chat/route.ts:72-83 | Extracting over a single match gives what that match leaves. |
| ChatProperties.ContextWithoutSurvivors | src/app/api/chat/route.ts:72-84 | With no matches field, no matches, or only falsy fragments, the context is "". |
| ChatProperties.SingleMatchContext | src/app/api/chat/route.ts:72-84 | One match gives `String` of its fragment when that is truthy (throwing when the conversion throws), and "" otherwise. |
| ChatProperties.StringSurvivorsNonEmpty | src/app/api/chat/route.ts:77-83 | When every fragment is a string, every survivor is a non-empty string. |
| ChatProperties.ContextHasNoStraySeparator | src/app/api/chat/route.ts:83-84 | With string texts, the join cannot throw, and the context is "" iff nothing survived. Otherwise it starts with the first surviving text and ends with the last one. |
| ChatProperties.ContextKeepsRankOrder | src/app/api/chat/route.ts:72-84 | The context of two runs of matches throws iff either run's does. Otherwise it is the first run's context, "\n\n", then the second's, so ranking order is kept. |
| ChatProperties.UnconvertibleTextFailsRetrieval | src/app/api/chat/route.ts:62-93 | A surviving fragment that `String` cannot convert makes the join throw: the retrieval error is answered after the query, and no completion is requested. |
| ChatProperties.NoUsableTextGivesEmptyFragment | src/app/api/chat/route.ts:74-81 | A match yields "" instead of aborting the request when its node content is missing, falsy or unconvertible, or does not parse, or when the parsed `text` is null, missing or falsy. |
| ChatProperties.UnusableMatchContributesNothing | src/app/api/chat/route.ts:74-83 | Inserting such a match anywhere among the matches leaves the context unchanged. |
| ChatProperties.StoredMatchFragment | src/app/api/chat/route.ts:72-84 | Take a match whose metadata has a `_node_content` JSON text that parses to an object with a truthy `text`, among any other fields. Its fragment is that `text`, and its context is `String` of it. |
| ChatProperties.ThreeSurvivors | src/app/api/chat/route.ts:72-83 | Three stored matches whose node contents parse to texts "A", "B", "C" keep exactly those texts, in rank order, as the context fragments. |
| ChatProperties.ThreeTextsContext | src/app/api/chat/route.ts:72-84 | Three stored texts "A", "B", "C" give the context "A\n\nB\n\nC". |
| ChatProperties.EmptyArrayTextLeavesSeparator | src/app/api/chat/route.ts:77-84 | As written, a text "A" followed by an empty-array `text` gives "A\n\n". |
| Js.FalsyValues | src/app/api/contact/route.ts:49 | `!v` holds exactly for undefined, null, false, 0 and "" (the falsy values behind `!value`, `||` and `filter(Boolean)`). |
| Js.Get | src/app/api/contact/route.ts:46 | A property read throws exactly on null or undefined. On an object holding the key it gives that field's value; on any other value it gives undefined. |
| Js.GetOptional | src/app/api/chat/route.ts:76 | `?.` gives what the plain read gives, and undefined where the plain read would throw. |
| Js.ToString | src/app/api/contact/route.ts:60-77 | `String` of a string is that string, and of a number its text. An object converts iff it has no own `toString` key; otherwise a TypeError is thrown. |
| Js.ArrayToString | src/app/api/chat/route.ts:84 | An array converts iff each element does, and then it equals its elements joined with ",". |
| Js.Rendered | src/app/api/chat/route.ts:84 | `join` converts each element: null and undefined give "", and anything else gives what `String` gives. |
| Js.RenderedConcat | src/app/api/chat/route.ts:84 | Element conversion distributes over concatenation. |
| Js.JoinValuesThrows | src/app/api/chat/route.ts:84 | Joining values throws exactly when converting some element throws. |
| Js.JoinValuesConcat | src/app/api/chat/route.ts:84 | Joining a concatenation throws iff joining either side does. Otherwise, with both sides non-empty, it is the two joins with one separator between them. |
| Js.JoinValuesOne | src/app/api/chat/route.ts:84 | A one-element join is `String` of the element, or "" for null and undefined. |
| Js.JoinAppend | src/app/api/chat/route.ts:84 | Joining one more part adds exactly one separator and that part at the end. |
| Js.JoinConcat | src/app/api/chat/route.ts:84 | Joining a concatenation joins each side with one separator in between. |
| Js.JoinFrames | src/app/api/chat/route.ts:84 | A non-empty join begins with its first part and ends with its last part. |
| Js.JoinLength | src/app/api/chat/route.ts:84 | The joined length is the parts' total length plus one separator per gap. |
| Js.JoinEmptyIff | src/app/api/chat/route.ts:84 | Over non-empty parts, the join is "" iff there are no parts. |
| ContactRoute.TestEmailConfiguration | src/app/api/contact/route.ts:13-33 | The preflight reports success iff the test send resolved without an error; a returned error and a throw both count as failure. |
| ContactRoute.FormOf | src/app/api/contact/route.ts:46 | Destructuring fails exactly for an unparsable or null body. Otherwise each field is what reading that property gives. |
| ContactRoute.SubmissionEmail | src/app/api/contact/route.ts:57-85 | Building the email throws iff converting the name, email or message throws. Otherwise the email goes from the contact sender to the inbox. Its subject is the fixed prefix followed by the rendered name. Reply-to is the submitted email value, and the body is the HTML template filled with the rendered fields. |
| ContactRoute.SendsExactly | src/app/api/contact/route.ts:15-85 | An email counts as sent exactly when the trace contains its send. |
| ContactRoute.Post | src/app/api/contact/route.ts:35-109 | The test email is always sent first. A failed preflight answers 500 before the body is read. The submission is sent iff the form is complete and the email could be built. Status 400 holds iff the form was read but a field is falsy. Status 200 holds iff every stage succeeded, and then exactly the test email and the submission were sent. Every other status is 500 with an error body. |
| ContactProperties.PostFollowsPrecedence | src/app/api/contact/route.ts:35-109 | On every input, the contact response equals the reference table: preflight, body, fields, rendering, delivery; the first failing stage decides. |
| ContactProperties.EarlyStagesDecide | src/app/api/contact/route.ts:38-46 | The precedence agrees when the preflight fails or the body cannot be read. |
| ContactProperties.FieldsDecide | src/app/api/contact/route.ts:48-54 | The precedence agrees when a field is falsy. |
| ContactProperties.RenderingDecides | src/app/api/contact/route.ts:57-85 | The precedence agrees when converting a field for the email throws. |
| ContactProperties.DeliveryDecides | src/app/api/contact/route.ts:87-93 | The precedence agrees when only the real send fails. |
| ContactProperties.NoStageFails | src/app/api/contact/route.ts:98-101 | With no failing stage, the response is 200 with the success message. |
| ContactProperties.PreflightFailureIgnoresPayload | src/app/api/contact/route.ts:38-44 | With a failed preflight, the body and the real send have no influence, and only the test email is sent. |
| ContactProperties.EmptyNameRejected | src/app/api/contact/route.ts:48-54 | An empty name with the other fields filled gives 400 after the test send and the body read, whatever the provider would do. |
| ContactProperties.CompleteSubmissionAccepted | src/app/api/contact/route.ts:63-101 | A complete string form with a working provider gives 200, and exactly the test email and the submission are sent. |
| ContactProperties.AbsentFieldRejected | src/app/api/contact/route.ts:46-54 | A body object lacking `name`, `email` or `message` gives 400 after the test send and the body read (`Complete` requires all three truthy). |
| ContactProperties.UnconvertibleNameIsUnexpected | src/app/api/contact/route.ts:57-108 | A name object with its own `toString` key makes the subject template throw: the catch-all answers, and only the test email was sent. |
| ContactProperties.SpliceSlots | src/app/api/contact/route.ts:69-84 | Each piece of a seven-part concatenation can be read back at the offset the earlier pieces' lengths give. |
| ContactProperties.HtmlEmbedsFieldsVerbatim | src/app/api/contact/route.ts:69-84 | `SubmissionHtml` is the fixed template with the rendered name, email and message at their slots, unescaped. |

## Left out

- Logging (`console.log` / `console.error`): it has no effect on responses. The one throwing log argument that is not modelled is `JSON.stringify` of the query response. The subject template inside the log argument at src/app/api/contact/route.ts:56-61 throws when `name` cannot be converted. That throw reaches the same catch-all, before any real send, as the one `SubmissionEmail` models for the same name, so that case is covered. A Pinecone response is plain JSON, so it does not throw.
- `NextResponse` framing, headers and `async` scheduling: a response is modelled as a status plus a JSON payload, and each handler as one synchronous decision.
- SDK internals (OpenAI, Pinecone, Resend): each call is an oracle value in the request that either returns a result or throws. The API keys passed to the client constructors are not modelled; the keys only matter through the presence check and the constructor outcome (`InitFault`).
- Embedding vectors are uninterpreted `seq<real>`: floating-point values only flow to the query.
- `JSON.parse` is a function parameter rather than a parser. `ParsesEmptyObject` states the one fact the handler relies on (`"{}"` parses to the empty object).
- Numbers are not modelled as floating point. A number carries the text that JavaScript's Number-to-String conversion gives for it, so JSON `0`, `0.0` and `-0` all carry "0" and are falsy, and `1e2` carries "100". `String` of a number is that text. `JSON.parse` never yields NaN.
- Inherited properties (prototype lookups) are not modelled. None of the keys read here is inherited by a value `JSON.parse` produces.
- The Resend client is constructed at module load. A constructor throw when `RESEND_API_KEY` is missing would make every request fail before the handler runs; this is not modelled, nor is the warning logged for the missing key. Sends are oracles.
- `getEmbedding`'s own `!openai` guard is not modelled: the handler has already checked the client, so the guard is unreachable from `POST`.
- The UI components, page layout and styling configuration are not modelled.
- ChatProperties.ContextHasNoStraySeparator: stated only for matches whose extracted texts are strings. A non-string truthy text (an empty array, or an array of nulls) can render as "", and `EmptyArrayTextLeavesSeparator` shows the resulting dangling separator.
- ChatProperties.MessagesDiffer: only distinctness from the retrieval text is stated, because that is what `RetrievalFailureSkipsGeneration` needs.

=== FILE: chat.dfy ===
/** The chat route (`POST /api/chat`): it checks the environment, reads
    `{ message }`, embeds the message, queries the vector index for the
    three closest stored passages, joins their texts into a grounding
    context and asks the chat-completion service for an answer.

    Every external interaction is an oracle value in the `Request`: the
    parsed body, the embedding response, the index response, `JSON.parse`
    of a match's metadata, and the completion response. `Post` returns the
    HTTP response together with the trace of interactions it performed. */
module ChatRoute {
  import opened Wrappers
  import opened Js
  import opened Http
  import opened Seqs

  const OpenAIKeyName := "OPENAI_API_KEY"
  const PineconeKeyName := "PINECONE_API_KEY"
  const IndexName := "cv-data-2"
  const EmbeddingModel := "text-embedding-ada-002"
  const ChatModel := "gpt-4"
  const TopK := 3
  const Temperature := 0
  const MaxTokens := 500
  const ContextSeparator := "\n\n"

  const MissingEnvPrefix := "Missing required environment variables: "
  const NotInitializedMessage :=
    "Service not properly initialized. Please check your environment variables and try again."
  const RetrievalFailedMessage := "Failed to retrieve context from Pinecone. " + TryAgainLater
  const GenerationFailedMessage := "Failed to generate response. " + TryAgainLater

  /** The system instruction up to the point where the context is spliced
      in, including the template literal's line breaks and indentation. */
  const PromptPreamble :=
    "You are a recruiter assistant for Gaston Woollands's CV web page. \n"
    + "            Only respond to questions related to Gaston's experience, skills, and projects.\n"
    + "            Be detailed and professional in your responses.\n"
    + "            Use the following context to inform your answers:\n"
    + "            "

  // ---------------------------------------------------------------------
  // Module-load configuration
  // ---------------------------------------------------------------------

  /** The two credentials as read from the process environment; None is an
      unset variable. */
  datatype Env = Env(openaiKey: Option<string>, pineconeKey: Option<string>)

  /** A variable counts as present when its value is truthy: set and not
      the empty string. */
  predicate IsSet(v: Option<string>) {
    v.Some? && v.value != ""
  }

  /** The names of the entries whose value is not set, in entry order. */
  function MissingKeys(entries: seq<(string, Option<string>)>): (r: seq<string>)
    ensures |r| <= |entries|
    ensures forall k :: k in r <==> exists i :: 0 <= i < |entries| && entries[i].0 == k && !IsSet(entries[i].1)
  {
    if |entries| == 0 then []
    else
      var rest := MissingKeys(entries[1..]);
      assert forall i :: 1 <= i < |entries| ==> entries[i] == entries[1..][i - 1];
      (if IsSet(entries[0].1) then [] else [entries[0].0]) + rest
  }

  /** The required variables, in declaration order. */
  function RequiredVars(env: Env): seq<(string, Option<string>)> {
    [(OpenAIKeyName, env.openaiKey), (PineconeKeyName, env.pineconeKey)]
  }

  /** `missingVars`: exactly the required variables that are unset or
      empty, OpenAI's before Pinecone's. */
  function MissingVars(env: Env): (r: seq<string>)
    ensures OpenAIKeyName in r <==> !IsSet(env.openaiKey)
    ensures PineconeKeyName in r <==> !IsSet(env.pineconeKey)
    ensures r == (if IsSet(env.openaiKey) then [] else [OpenAIKeyName])
               + (if IsSet(env.pineconeKey) then [] else [PineconeKeyName])
  {
    var entries := RequiredVars(env);
    assert entries[1..][1..] == [];
    assert MissingKeys(entries[1..]) == (if IsSet(env.pineconeKey) then [] else [PineconeKeyName]);
    MissingKeys(entries)
  }

  /** Which client construction, if any, throws while the module loads
      (the construction runs in this order inside one `try`). */
  datatype InitFault = NoFault | OpenAIThrows | PineconeThrows | IndexThrows

  /** Which of the three module-level clients (`openai`, `pinecone`,
      `index`) ended up non-null. */
  datatype Clients = Clients(openai: bool, pinecone: bool, index: bool)

  /** The module state every request sees. */
  datatype Server = Server(missing: seq<string>, clients: Clients)

  /** Every client was constructed. */
  predicate Ready(s: Server) {
    s.clients.openai && s.clients.pinecone && s.clients.index
  }

  /** Module load: compute the missing variables and, only when there are
      none, construct the clients in order; a throwing constructor leaves
      it and every later client null. */
  function Boot(env: Env, fault: InitFault): (s: Server)
    ensures s.missing == MissingVars(env)
    ensures Ready(s) <==> s.missing == [] && fault == NoFault
    ensures s.missing != [] ==> s.clients == Clients(false, false, false)
  {
    var missing := MissingVars(env);
    if missing != [] then Server(missing, Clients(false, false, false))
    else
      match fault
      case NoFault => Server(missing, Clients(true, true, true))
      case OpenAIThrows => Server(missing, Clients(false, false, false))
      case PineconeThrows => Server(missing, Clients(true, false, false))
      case IndexThrows => Server(missing, Clients(true, true, false))
  }

  // ---------------------------------------------------------------------
  // Per-request oracles
  // ---------------------------------------------------------------------

  /** An embedding vector; its numeric content only flows to the query. */
  type Vector = seq<real>

  /** `openai.embeddings.create(...)`: throws, or returns `data`. An empty
      `data` makes `data[0].embedding` throw. */
  datatype EmbeddingOutcome = EmbeddingThrows | EmbeddingReturns(data: seq<Vector>)

  /** One index match; only its metadata is read. Missing metadata is
      `Undefined`. */
  datatype Match = Match(metadata: Value)

  /** `index.query(...)`: throws, or returns a response whose `matches` may
      be undefined (None). */
  datatype QueryOutcome = QueryThrows | QueryReturns(matches: Option<seq<Match>>)

  /** One completion choice; `content` is the message text (or null). */
  datatype Choice = Choice(content: Value)

  /** `openai.chat.completions.create(...)`: throws, or returns `choices`.
      An empty `choices` makes `choices[0]` throw. */
  datatype CompletionOutcome = CompletionThrows | CompletionReturns(choices: seq<Choice>)

  /** Everything the outside world decides about one request. `parse` is
      `JSON.parse`: None when it throws. */
  datatype Request = Request(
    body: RequestBody,
    embedding: EmbeddingOutcome,
    query: QueryOutcome,
    parse: string -> Option<Value>,
    completion: CompletionOutcome)

  // ---------------------------------------------------------------------
  // Trace
  // ---------------------------------------------------------------------

  datatype Role = System | User

  /** One turn of the prompt. */
  datatype Turn = Turn(role: Role, content: Value)

  /** The chat-completion request body. */
  datatype CompletionRequest =
    CompletionRequest(model: string, messages: seq<Turn>, temperature: int, maxTokens: int)

  /** The interactions with the outside world, in the order they happen. */
  datatype Call =
    | ReadBody
    | Embed(model: string, input: Value)
    | Query(index: string, vector: Vector, topK: int, includeMetadata: bool)
    | Generate(request: CompletionRequest)

  /** Position of each kind of interaction in a complete request. */
  function Step(c: Call): nat {
    match c
    case ReadBody => 0
    case Embed(_, _) => 1
    case Query(_, _, _, _) => 2
    case Generate(_) => 3
  }

  datatype Outcome = Outcome(response: Response, trace: seq<Call>)

  // ---------------------------------------------------------------------
  // Stages
  // ---------------------------------------------------------------------

  /** `const { message } = await req.json()`: None when the body is not
      JSON or is JSON null (destructuring null throws). */
  function MessageOf(body: RequestBody): (r: Option<Value>)
    ensures r.None? <==> body.Malformed? || body.value.Null? || body.value.Undefined?
    ensures r.Some? ==> body.Parsed? && Get(body.value, "message") == r
  {
    match body
    case Malformed => None
    case Parsed(v) => Get(v, "message")
  }

  /** The error text of the configuration gate. */
  function MissingEnvMessage(missing: seq<string>): (r: string)
    ensures |r| >= |MissingEnvPrefix| && r[..|MissingEnvPrefix|] == MissingEnvPrefix
    ensures |missing| == 1 ==> r == MissingEnvPrefix + missing[0]
    ensures |missing| == 2 ==> r == MissingEnvPrefix + missing[0] + ", " + missing[1]
  {
    if |missing| == 2 then
      assert missing[1..] == [missing[1]];
      assert Join(missing, ", ") == missing[0] + ", " + missing[1];
      MissingEnvPrefix + Join(missing, ", ")
    else
      MissingEnvPrefix + Join(missing, ", ")
  }

  /** Embedding and index query both returned usable results, and the
      context could be built from the matches. */
  predicate RetrievalSucceeds(q: Request) {
    q.embedding.EmbeddingReturns? && |q.embedding.data| > 0 && q.query.QueryReturns?
    && Context(q.query.matches, q.parse).Some?
  }

  /** The completion returned at least one choice. */
  predicate GenerationSucceeds(q: Request) {
    q.completion.CompletionReturns? && |q.completion.choices| > 0
  }

  /** `match.metadata?._node_content`. */
  function NodeContent(m: Match): Value {
    GetOptional(m.metadata, "_node_content")
  }

  /** The per-match callback: parse the node content (or "{}" when it is
      falsy) and take its `text`, falling back to '' when the text is falsy
      or when converting the node content, parsing or reading `text`
      throws. It never throws. */
  function Fragment(m: Match, parse: string -> Option<Value>): (r: Value)
    ensures Truthy(r) || r == Str("")
  {
    var source := NodeContent(m);
    var json := if Truthy(source) then ToString(source) else Some("{}");
    match json
    case None => Str("")
    case Some(j) =>
      match parse(j)
      case None => Str("")
      case Some(node) =>
        match Get(node, "text")
        case None => Str("")
        case Some(text) => if Truthy(text) then text else Str("")
  }

  /** What one match leaves after `.map(callback).filter(Boolean)`: its
      fragment when that is truthy, nothing otherwise. */
  function Survivor(m: Match, parse: string -> Option<Value>): (r: seq<Value>)
    ensures |r| <= 1
    ensures |r| == 1 <==> Truthy(Fragment(m, parse))
    ensures |r| == 1 ==> r[0] == Fragment(m, parse)
  {
    var f := Fragment(m, parse);
    if Truthy(f) then [f] else []
  }

  /** `Survivor` as a function value, so that every use names the same one. */
  function SurvivorOf(parse: string -> Option<Value>): Match -> seq<Value> {
    m => Survivor(m, parse)
  }

  /** `.map(callback).filter(Boolean)` over all matches, in match order:
      only truthy values remain, at most one per match. */
  function Survivors(ms: seq<Match>, parse: string -> Option<Value>): (r: seq<Value>)
    ensures |r| <= |ms|
    ensures forall k :: 0 <= k < |r| ==> Truthy(r[k])
  {
    var f := SurvivorOf(parse);
    FlatMapAtMostOne(ms, f);
    FlatMapFrom(ms, f, (v: Value) => Truthy(v));
    FlatMap(ms, f)
  }

  /** `queryResponse.matches?.map(...).filter(Boolean).join('\n\n') || ''`;
      None when `join` throws converting a surviving value. */
  function Context(matches: Option<seq<Match>>, parse: string -> Option<Value>): (r: Option<string>)
    ensures matches.None? ==> r == Some("")
    ensures matches.Some? && Survivors(matches.value, parse) == [] ==> r == Some("")
  {
    match matches
    case None => Some("")
    case Some(ms) => JoinValues(Survivors(ms, parse), ContextSeparator)
  }

  /** The system instruction with the context spliced in at its end. */
  function SystemPrompt(context: string): (r: string)
    ensures |r| == |PromptPreamble| + |context|
    ensures r[..|PromptPreamble|] == PromptPreamble
    ensures r[|PromptPreamble|..] == context
  {
    PromptPreamble + context
  }

  /** The two-turn completion request: the grounded system instruction
      then the user's message, unchanged, deterministic and capped. */
  function Completion(context: string, message: Value): (r: CompletionRequest)
    ensures r.model == "gpt-4" && r.temperature == 0 && r.maxTokens == 500
    ensures |r.messages| == 2
    ensures r.messages[0].role == System && r.messages[0].content.Str?
    // the system text is the fixed instruction followed by the context
    ensures r.messages[0].content == Str(SystemPrompt(context))
    ensures |r.messages[0].content.s| == |PromptPreamble| + |context|
    ensures r.messages[0].content.s[..|PromptPreamble|] == PromptPreamble
    ensures r.messages[0].content.s[|PromptPreamble|..] == context
    ensures r.messages[1] == Turn(User, message)
  {
    CompletionRequest(
      ChatModel,
      [Turn(System, Str(SystemPrompt(context))), Turn(User, message)],
      Temperature,
      MaxTokens)
  }

  // ---------------------------------------------------------------------
  // The handler
  // ---------------------------------------------------------------------

  /** `POST /api/chat`. */
  function Post(s: Server, q: Request): (r: Outcome)
    // configuration gate: before the body is read, and with no call at all
    ensures s.missing != [] ==> r == Outcome(Fail(500, MissingEnvMessage(s.missing)), [])
    ensures s.missing == [] ==> |r.trace| > 0 && r.trace[0] == ReadBody
    // interactions happen in the fixed order, each at most once
    ensures |r.trace| <= 4
    ensures forall i :: 0 <= i < |r.trace| ==> Step(r.trace[i]) == i
    // the embedding is requested exactly when the message and the clients are there
    ensures |r.trace| > 1 <==> s.missing == [] && MessageOf(q.body).Some? && Ready(s)
    // the index is queried exactly when, moreover, an embedding came back
    ensures |r.trace| > 2 <==>
              s.missing == [] && MessageOf(q.body).Some? && Ready(s)
              && q.embedding.EmbeddingReturns? && |q.embedding.data| > 0
    // generation happens exactly when retrieval succeeded
    ensures |r.trace| == 4 <==> s.missing == [] && MessageOf(q.body).Some? && Ready(s) && RetrievalSucceeds(q)
    ensures r.response.status == 200 <==>
              s.missing == [] && MessageOf(q.body).Some? && Ready(s) && RetrievalSucceeds(q) && GenerationSucceeds(q)
    ensures r.response.status != 200 ==> r.response.status == 500 && r.response.payload.ErrorBody?
    ensures r.response.status == 200 ==>
              q.completion.CompletionReturns? && |q.completion.choices| > 0
              && r.response.payload == ResponseBody(q.completion.choices[0].content)
    // what is sent to each provider
    ensures |r.trace| > 1 ==> MessageOf(q.body).Some? && r.trace[1] == Embed(EmbeddingModel, MessageOf(q.body).value)
    ensures |r.trace| > 2 ==>
              (q.embedding.EmbeddingReturns? && |q.embedding.data| > 0
               && r.trace[2] == Query("cv-data-2", q.embedding.data[0], 3, true))
    ensures |r.trace| > 3 ==>
              (q.query.QueryReturns? && MessageOf(q.body).Some? && Context(q.query.matches, q.parse).Some?
               && r.trace[3] == Generate(Completion(Context(q.query.matches, q.parse).value, MessageOf(q.body).value)))
  {
    if s.missing != [] then
      Outcome(Fail(500, MissingEnvMessage(s.missing)), [])
    else
      match MessageOf(q.body)
      case None => Outcome(Unexpected, [ReadBody])
      case Some(message) =>
        if !Ready(s) then Outcome(Fail(500, NotInitializedMessage), [ReadBody])
        else
          var embed := Embed(EmbeddingModel, message);
          match q.embedding
          case EmbeddingThrows => Outcome(Fail(500, RetrievalFailedMessage), [ReadBody, embed])
          case EmbeddingReturns(data) =>
            if |data| == 0 then Outcome(Fail(500, RetrievalFailedMessage), [ReadBody, embed])
            else
              var query := Query(IndexName, data[0], TopK, true);
              match q.query
              case QueryThrows => Outcome(Fail(500, RetrievalFailedMessage), [ReadBody, embed, query])
              case QueryReturns(matches) =>
                match Context(matches, q.parse)
                case None => Outcome(Fail(500, RetrievalFailedMessage), [ReadBody, embed, query])
                case Some(context) =>
                  var calls := [ReadBody, embed, query, Generate(Completion(context, message))];
                  match q.completion
                  case CompletionThrows => Outcome(Fail(500, GenerationFailedMessage), calls)
                  case CompletionReturns(choices) =>
                    if |choices| == 0 then Outcome(Fail(500, GenerationFailedMessage), calls)
                    else Outcome(Response(200, ResponseBody(choices[0].content)), calls)
  }
}

=== FILE: chat_properties.dfy ===
/** Properties of the chat route that relate several calls or several
    inputs: error precedence against a reference decision table, the
    configuration gate, and the shape of the grounding context. */
module ChatProperties {
  import opened Wrappers
  import opened Js
  import opened Http
  import opened Precedence
  import opened Seqs
  import opened ChatRoute

  // ---------------------------------------------------------------------
  // Error precedence
  // ---------------------------------------------------------------------

  /** The stages that can decide a chat response, in the order the handler
      runs them. */
  datatype Stage = Configuration | Body | Initialization | Retrieval | Generation

  const Stages: seq<Stage> := [Configuration, Body, Initialization, Retrieval, Generation]

  /** Whether a stage fails, judged from the server state and oracles
      alone, independently of the other stages. */
  predicate Fails(s: Server, q: Request, st: Stage) {
    match st
    case Configuration => s.missing != []
    case Body => MessageOf(q.body).None?
    case Initialization => !Ready(s)
    case Retrieval => !RetrievalSucceeds(q)
    case Generation => !GenerationSucceeds(q)
  }

  /** The fixed response of each failing stage. */
  function ErrorFor(s: Server, st: Stage): Response {
    match st
    case Configuration => Fail(500, MissingEnvMessage(s.missing))
    case Body => Unexpected
    case Initialization => Fail(500, NotInitializedMessage)
    case Retrieval => Fail(500, RetrievalFailedMessage)
    case Generation => Fail(500, GenerationFailedMessage)
  }

  /** Reference decision table: the first failing stage decides; with no
      failing stage the first choice's content is returned. */
  function Expected(s: Server, q: Request): Response {
    match FirstFailing(Stages, st => Fails(s, q, st))
    case Some(st) => ErrorFor(s, st)
    case None =>
      assert Stages[4] == Generation;
      Response(200, ResponseBody(q.completion.choices[0].content))
  }

  /** The handler answers exactly as the decision table says. */
  lemma PostFollowsPrecedence(s: Server, q: Request)
    ensures Post(s, q).response == Expected(s, q)
  {
    if Fails(s, q, Configuration) || Fails(s, q, Body) || Fails(s, q, Initialization) {
      EarlyStagesDecide(s, q);
    } else if Fails(s, q, Retrieval) {
      RetrievalDecides(s, q);
    } else if Fails(s, q, Generation) {
      GenerationDecides(s, q);
    } else {
      NoStageFails(s, q);
    }
  }

  /** The case of PostFollowsPrecedence where a local check fails. */
  lemma EarlyStagesDecide(s: Server, q: Request)
    requires Fails(s, q, Configuration) || Fails(s, q, Body) || Fails(s, q, Initialization)
    ensures Post(s, q).response == Expected(s, q)
  {
    var fails := st => Fails(s, q, st);
    if fails(Stages[0]) {
      FirstFailingAt(Stages, fails, 0);
    } else if fails(Stages[1]) {
      FirstFailingAt(Stages, fails, 1);
    } else {
      FirstFailingAt(Stages, fails, 2);
    }
  }

  /** The case of PostFollowsPrecedence where retrieval fails. */
  lemma RetrievalDecides(s: Server, q: Request)
    requires !Fails(s, q, Configuration) && !Fails(s, q, Body) && !Fails(s, q, Initialization)
    requires Fails(s, q, Retrieval)
    ensures Post(s, q).response == Expected(s, q)
  {
    FirstFailingAt(Stages, st => Fails(s, q, st), 3);
  }

  /** The case of PostFollowsPrecedence where only generation fails. */
  lemma GenerationDecides(s: Server, q: Request)
    requires !Fails(s, q, Configuration) && !Fails(s, q, Body) && !Fails(s, q, Initialization)
    requires !Fails(s, q, Retrieval) && Fails(s, q, Generation)
    ensures Post(s, q).response == Expected(s, q)
  {
    FirstFailingAt(Stages, st => Fails(s, q, st), 4);
  }

  /** The case of PostFollowsPrecedence where no stage fails. */
  lemma NoStageFails(s: Server, q: Request)
    requires forall st :: !Fails(s, q, st)
    ensures Post(s, q).response == Expected(s, q)
  {
  }

  // ---------------------------------------------------------------------
  // Configuration gate and initialisation
  // ---------------------------------------------------------------------

  /** The configuration error names the missing variables in declaration
      order, separated by ", ". */
  lemma MissingEnvMessageText(env: Env)
    ensures !IsSet(env.openaiKey) && !IsSet(env.pineconeKey) ==>
              MissingEnvMessage(MissingVars(env))
                == MissingEnvPrefix + OpenAIKeyName + ", " + PineconeKeyName
    ensures !IsSet(env.openaiKey) && IsSet(env.pineconeKey) ==>
              MissingEnvMessage(MissingVars(env)) == MissingEnvPrefix + OpenAIKeyName
    ensures IsSet(env.openaiKey) && !IsSet(env.pineconeKey) ==>
              MissingEnvMessage(MissingVars(env)) == MissingEnvPrefix + PineconeKeyName
  {
    var missing := MissingVars(env);
    if !IsSet(env.openaiKey) && !IsSet(env.pineconeKey) {
      assert missing == [OpenAIKeyName, PineconeKeyName];
      assert missing[1..] == [PineconeKeyName];
      assert Join(missing, ", ") == OpenAIKeyName + ", " + PineconeKeyName;
    } else if !IsSet(env.openaiKey) && IsSet(env.pineconeKey) {
      assert missing == [OpenAIKeyName];
    } else if IsSet(env.openaiKey) && !IsSet(env.pineconeKey) {
      assert missing == [PineconeKeyName];
    }
  }

  /** With a variable missing, every request gets the configuration error
      and nothing is read or called. */
  lemma MissingVarsGate(env: Env, fault: InitFault, q: Request)
    requires !IsSet(env.openaiKey) || !IsSet(env.pineconeKey)
    ensures Post(Boot(env, fault), q) == Outcome(Fail(500, MissingEnvMessage(MissingVars(env))), [])
  {
  }

  /** While the gate is closed the request has no influence at all on the
      outcome. */
  lemma MissingVarsIgnoreRequest(s: Server, q1: Request, q2: Request)
    requires s.missing != []
    ensures Post(s, q1) == Post(s, q2)
  {
  }

  /** With the variables present but a client constructor having thrown,
      a readable request gets the initialisation error after its body was
      read, and no provider is called. */
  lemma InitFaultGate(env: Env, fault: InitFault, q: Request)
    requires IsSet(env.openaiKey) && IsSet(env.pineconeKey)
    requires fault != NoFault
    requires MessageOf(q.body).Some?
    ensures Post(Boot(env, fault), q) == Outcome(Fail(500, NotInitializedMessage), [ReadBody])
  {
  }

  /** A body that cannot be read or destructured ends in the catch-all,
      whether or not the clients were initialised: the body is read before
      the initialisation check. */
  lemma MalformedBodyIsUnexpected(s: Server, q: Request)
    requires s.missing == []
    requires MessageOf(q.body).None?
    ensures Post(s, q) == Outcome(Unexpected, [ReadBody])
  {
  }

  // ---------------------------------------------------------------------
  // Retrieval and generation failures
  // ---------------------------------------------------------------------

  /** The retrieval error is answered exactly when the earlier stages
      passed and the embedding or the query failed; it is never followed
      by a generation call. */
  lemma RetrievalFailureSkipsGeneration(s: Server, q: Request)
    ensures Post(s, q).response == Fail(500, RetrievalFailedMessage) <==>
              s.missing == [] && MessageOf(q.body).Some? && Ready(s) && !RetrievalSucceeds(q)
    ensures Post(s, q).response == Fail(500, RetrievalFailedMessage) ==>
              forall i :: 0 <= i < |Post(s, q).trace| ==> !Post(s, q).trace[i].Generate?
  {
    var r := Post(s, q);
    MessagesDiffer(s.missing);
    if r.response == Fail(500, RetrievalFailedMessage) {
      assert |r.trace| < 4;
    }
  }

  /** The fixed error texts are pairwise distinct. */
  lemma MessagesDiffer(missing: seq<string>)
    ensures MissingEnvMessage(missing) != RetrievalFailedMessage
    ensures UnexpectedMessage != RetrievalFailedMessage
    ensures NotInitializedMessage != RetrievalFailedMessage
    ensures GenerationFailedMessage != RetrievalFailedMessage
  {
    assert MissingEnvMessage(missing)[0] == 'M';
    assert RetrievalFailedMessage[0] == 'F';
    // the literal lengths of the four texts; they must follow any change to them
    assert |RetrievalFailedMessage| == 65;
    assert |UnexpectedMessage| == 53;
    assert |NotInitializedMessage| == 88;
    assert |GenerationFailedMessage| == 52;
  }

  /** A throwing embedding call is reported as a retrieval failure, and
      the index is then never queried. */
  lemma EmbeddingFailureIsRetrievalFailure(s: Server, q: Request)
    requires s.missing == [] && MessageOf(q.body).Some? && Ready(s)
    requires q.embedding.EmbeddingThrows?
    ensures Post(s, q) == Outcome(Fail(500, RetrievalFailedMessage),
                                  [ReadBody, Embed(EmbeddingModel, MessageOf(q.body).value)])
  {
  }

  /** After a successful retrieval, a failing completion gives the
      generation error, with the completion request in the trace. */
  lemma GenerationFailure(s: Server, q: Request)
    requires s.missing == [] && MessageOf(q.body).Some? && Ready(s) && RetrievalSucceeds(q)
    requires !GenerationSucceeds(q)
    ensures Post(s, q).response == Fail(500, GenerationFailedMessage)
    ensures |Post(s, q).trace| == 4
  {
  }

  // ---------------------------------------------------------------------
  // Grounding context
  // ---------------------------------------------------------------------

  /** Survivors of consecutive runs of matches are the survivors of each
      run, in the same order. */
  lemma SurvivorsConcat(a: seq<Match>, b: seq<Match>, parse: string -> Option<Value>)
    ensures Survivors(a + b, parse) == Survivors(a, parse) + Survivors(b, parse)
  {
    FlatMapConcat(a, b, SurvivorOf(parse));
  }

  /** The survivors of a single match are what that match leaves. */
  lemma SurvivorsOfOne(m: Match, parse: string -> Option<Value>)
    ensures Survivors([m], parse) == Survivor(m, parse)
  {
    FlatMapOne(m, SurvivorOf(parse));
    assert SurvivorOf(parse)(m) == Survivor(m, parse);
  }

  /** Without a surviving fragment (no matches field, no matches, or every
      extraction empty) the context is the empty string. */
  lemma ContextWithoutSurvivors(matches: Option<seq<Match>>, parse: string -> Option<Value>)
    requires matches.Some? ==> forall i :: 0 <= i < |matches.value| ==> !Truthy(Fragment(matches.value[i], parse))
    ensures Context(matches, parse) == Some("")
  {
    if matches.Some? {
      var ms := matches.value;
      assert forall i :: 0 <= i < |ms| ==> SurvivorOf(parse)(ms[i]) == [];
      FlatMapNothing(ms, SurvivorOf(parse));
    }
  }

  /** A single match contributes `String` of its fragment when that is
      truthy, and nothing otherwise; the conversion may throw. */
  lemma SingleMatchContext(m: Match, parse: string -> Option<Value>)
    ensures Truthy(Fragment(m, parse)) ==> Context(Some([m]), parse) == ToString(Fragment(m, parse))
    ensures !Truthy(Fragment(m, parse)) ==> Context(Some([m]), parse) == Some("")
  {
    SurvivorsOfOne(m, parse);
    var f := Fragment(m, parse);
    if Truthy(f) {
      assert Survivors([m], parse) == [f];
      JoinValuesOne(f, ContextSeparator);
    }
  }

  /** The shape the index stores: every extracted fragment is a string. */
  predicate TextsAreStrings(ms: seq<Match>, parse: string -> Option<Value>) {
    forall i :: 0 <= i < |ms| ==> Fragment(ms[i], parse).Str?
  }

  /** With string fragments, every survivor is a non-empty string. */
  lemma StringSurvivorsNonEmpty(ms: seq<Match>, parse: string -> Option<Value>)
    requires TextsAreStrings(ms, parse)
    ensures forall i :: 0 <= i < |Survivors(ms, parse)| ==>
              Survivors(ms, parse)[i].Str? && Survivors(ms, parse)[i].s != ""
  {
    var f := SurvivorOf(parse);
    forall i, j | 0 <= i < |ms| && 0 <= j < |f(ms[i])| ensures f(ms[i])[j].Str? && f(ms[i])[j].s != "" {
      assert Fragment(ms[i], parse).Str?;
    }
    FlatMapFrom(ms, f, (v: Value) => v.Str? && v.s != "");
  }

  /** `text` begins with `first` and ends with `last`. */
  predicate Framed(text: string, first: string, last: string) {
    |text| >= |first| && |text| >= |last| && text[..|first|] == first && text[|text| - |last|..] == last
  }

  /** With string fragments the join cannot throw, the context is empty
      exactly when nothing survived, and otherwise it starts with the first
      surviving text and ends with the last one: never a lone or dangling
      separator. */
  lemma ContextHasNoStraySeparator(ms: seq<Match>, parse: string -> Option<Value>)
    requires TextsAreStrings(ms, parse)
    ensures Context(Some(ms), parse).Some?
    ensures Context(Some(ms), parse).value == "" <==> Survivors(ms, parse) == []
    ensures forall i :: 0 <= i < |Survivors(ms, parse)| ==> Survivors(ms, parse)[i].Str?
    ensures Survivors(ms, parse) != [] ==>
              Framed(Context(Some(ms), parse).value, Survivors(ms, parse)[0].s,
                     Survivors(ms, parse)[|Survivors(ms, parse)| - 1].s)
  {
    var kept := Survivors(ms, parse);
    StringSurvivorsNonEmpty(ms, parse);
    assert forall i :: 0 <= i < |kept| ==> Renderable(kept[i]);
    var texts := Rendered(kept);
    assert forall i :: 0 <= i < |kept| ==> texts[i] == kept[i].s;
    assert Context(Some(ms), parse) == Some(Join(texts, ContextSeparator));
    JoinEmptyIff(texts, ContextSeparator);
    if kept != [] {
      JoinFrames(texts, ContextSeparator);
    }
  }

  /** Rank order is kept: building the context of a run of matches
      followed by another throws iff building either does, and otherwise
      it is the first run's context, a separator, then the second's (when
      both contribute). */
  lemma ContextKeepsRankOrder(a: seq<Match>, b: seq<Match>, parse: string -> Option<Value>)
    ensures Context(Some(a + b), parse).None? <==> Context(Some(a), parse).None? || Context(Some(b), parse).None?
    ensures Survivors(a, parse) != [] && Survivors(b, parse) != [] && Context(Some(a + b), parse).Some? ==>
              Context(Some(a + b), parse).value
                == Context(Some(a), parse).value + "\n\n" + Context(Some(b), parse).value
  {
    SurvivorsConcat(a, b, parse);
    JoinValuesConcat(Survivors(a, parse), Survivors(b, parse), ContextSeparator);
  }

  /** A surviving fragment that `String` cannot convert makes the join
      throw inside the retrieval `try`: the retrieval error is answered
      and no completion is requested. */
  lemma UnconvertibleTextFailsRetrieval(s: Server, q: Request, i: int)
    requires s.missing == [] && MessageOf(q.body).Some? && Ready(s)
    requires q.embedding.EmbeddingReturns? && |q.embedding.data| > 0
    requires q.query.QueryReturns? && q.query.matches.Some?
    requires 0 <= i < |q.query.matches.value|
    requires ToString(Fragment(q.query.matches.value[i], q.parse)).None?
    ensures Post(s, q) == Outcome(Fail(500, RetrievalFailedMessage),
                                  [ReadBody, Embed(EmbeddingModel, MessageOf(q.body).value),
                                   Query(IndexName, q.embedding.data[0], TopK, true)])
  {
    var ms := q.query.matches.value;
    var f := Fragment(ms[i], q.parse);
    assert Truthy(f);
    assert ms == ms[..i] + [ms[i]] + ms[i + 1..];
    SurvivorsOfOne(ms[i], q.parse);
    SurvivorsConcat(ms[..i] + [ms[i]], ms[i + 1..], q.parse);
    SurvivorsConcat(ms[..i], [ms[i]], q.parse);
    var kept := Survivors(ms, q.parse);
    var k := |Survivors(ms[..i], q.parse)|;
    assert kept[k] == f;
    assert Context(q.query.matches, q.parse).None?;
  }

  /** `JSON.parse('{}')` is the empty object. */
  predicate ParsesEmptyObject(parse: string -> Option<Value>) {
    parse("{}") == Some(Obj(map[]))
  }

  /** A match without usable text: its node content is missing or falsy,
      or cannot be converted to a string, or does not parse, or the parsed
      value is null or has a falsy `text`. */
  predicate NoUsableText(m: Match, parse: string -> Option<Value>) {
    var source := NodeContent(m);
    !Truthy(source)
    || ToString(source).None?
    || parse(ToString(source).value).None?
    || Get(parse(ToString(source).value).value, "text").None?
    || !Truthy(Get(parse(ToString(source).value).value, "text").value)
  }

  /** Such a match yields the empty fragment rather than aborting. */
  lemma NoUsableTextGivesEmptyFragment(m: Match, parse: string -> Option<Value>)
    requires ParsesEmptyObject(parse)
    requires NoUsableText(m, parse)
    ensures Fragment(m, parse) == Str("")
  {
  }

  /** Inserting a match without usable text anywhere among the matches
      leaves the context unchanged. */
  lemma UnusableMatchContributesNothing(before: seq<Match>, m: Match, after: seq<Match>,
                                        parse: string -> Option<Value>)
    requires ParsesEmptyObject(parse)
    requires NoUsableText(m, parse)
    ensures Context(Some(before + [m] + after), parse) == Context(Some(before + after), parse)
  {
    NoUsableTextGivesEmptyFragment(m, parse);
    SurvivorsOfOne(m, parse);
    SurvivorsConcat(before + [m], after, parse);
    SurvivorsConcat(before, [m], parse);
    SurvivorsConcat(before, after, parse);
    assert Survivors(before + [m], parse) == Survivors(before, parse);
  }

  /** A match whose metadata holds a `_node_content` JSON text that parses
      to an object with a truthy `text` contributes exactly that `text`,
      converted by `String`. */
  lemma StoredMatchFragment(m: Match, json: string, fields: map<string, Value>,
                            parse: string -> Option<Value>)
    requires m.metadata.Obj? && "_node_content" in m.metadata.fields
    requires m.metadata.fields["_node_content"] == Str(json) && json != ""
    requires parse(json) == Some(Obj(fields)) && "text" in fields && Truthy(fields["text"])
    ensures Fragment(m, parse) == fields["text"]
    ensures Survivor(m, parse) == [fields["text"]]
    ensures Context(Some([m]), parse) == ToString(fields["text"])
  {
    SingleMatchContext(m, parse);
  }

  /** A match stored in the usual shape: its metadata holds only the
      `_node_content` JSON text. */
  function StoredMatch(json: string): Match {
    Match(Obj(map["_node_content" := Str(json)]))
  }

  /** The survivors of the three matches of ThreeTextsContext. */
  lemma ThreeSurvivors(ms: seq<Match>, ja: string, jb: string, jc: string, parse: string -> Option<Value>)
    requires ms == [StoredMatch(ja), StoredMatch(jb), StoredMatch(jc)]
    requires ja != "" && jb != "" && jc != ""
    requires parse(ja) == Some(Obj(map["text" := Str("A")]))
    requires parse(jb) == Some(Obj(map["text" := Str("B")]))
    requires parse(jc) == Some(Obj(map["text" := Str("C")]))
    ensures Survivors(ms, parse) == [Str("A"), Str("B"), Str("C")]
  {
    StoredMatchFragment(ms[0], ja, map["text" := Str("A")], parse);
    StoredMatchFragment(ms[1], jb, map["text" := Str("B")], parse);
    StoredMatchFragment(ms[2], jc, map["text" := Str("C")], parse);
    SurvivorsOfOne(ms[0], parse);
    SurvivorsOfOne(ms[1], parse);
    SurvivorsOfOne(ms[2], parse);
    assert ms == [ms[0]] + [ms[1]] + [ms[2]];
    SurvivorsConcat([ms[0]] + [ms[1]], [ms[2]], parse);
    SurvivorsConcat([ms[0]], [ms[1]], parse);
  }

  /** Three matches whose node contents parse to texts "A", "B" and "C"
      give "A\n\nB\n\nC". */
  lemma ThreeTextsContext(ja: string, jb: string, jc: string, parse: string -> Option<Value>)
    requires ja != "" && jb != "" && jc != ""
    requires parse(ja) == Some(Obj(map["text" := Str("A")]))
    requires parse(jb) == Some(Obj(map["text" := Str("B")]))
    requires parse(jc) == Some(Obj(map["text" := Str("C")]))
    ensures Context(Some([StoredMatch(ja), StoredMatch(jb), StoredMatch(jc)]), parse) == Some("A\n\nB\n\nC")
  {
    var ms := [StoredMatch(ja), StoredMatch(jb), StoredMatch(jc)];
    ThreeSurvivors(ms, ja, jb, jc, parse);
    var kept := Survivors(ms, parse);
    assert Rendered(kept) == ["A", "B", "C"];
    assert Context(Some(ms), parse) == Some(Join(["A", "B", "C"], ContextSeparator));
    JoinAppend(["A"], "B", ContextSeparator);
    JoinAppend(["A", "B"], "C", ContextSeparator);
    assert ["A"] + ["B"] == ["A", "B"];
    assert ["A", "B"] + ["C"] == ["A", "B", "C"];
    assert Join(["A", "B", "C"], ContextSeparator) == "A" + ContextSeparator + "B" + ContextSeparator + "C";
    assert "A" + ContextSeparator + "B" + ContextSeparator + "C" == "A\n\nB\n\nC";
  }

  /** As written, `filter(Boolean)` drops falsy values, not values that
      render as empty: a `text` that is an empty array is kept and renders
      as "", so the context ends in a dangling separator. */
  lemma EmptyArrayTextLeavesSeparator(ja: string, jb: string, parse: string -> Option<Value>)
    requires ja != "" && jb != ""
    requires parse(ja) == Some(Obj(map["text" := Str("A")]))
    requires parse(jb) == Some(Obj(map["text" := Arr([])]))
    ensures Context(Some([StoredMatch(ja), StoredMatch(jb)]), parse) == Some("A\n\n")
  {
    var ms := [StoredMatch(ja), StoredMatch(jb)];
    StoredMatchFragment(ms[0], ja, map["text" := Str("A")], parse);
    StoredMatchFragment(ms[1], jb, map["text" := Arr([])], parse);
    assert ToString(Arr([])) == Some("");
    SurvivorsOfOne(ms[0], parse);
    SurvivorsOfOne(ms[1], parse);
    assert ms == [ms[0]] + [ms[1]];
    SurvivorsConcat([ms[0]], [ms[1]], parse);
    var kept := Survivors(ms, parse);
    assert kept == [Str("A"), Arr([])];
    assert Rendered(kept) == ["A", ""];
    assert Context(Some(ms), parse) == Some(Join(["A", ""], ContextSeparator));
    JoinAppend(["A"], "", ContextSeparator);
    assert ["A"] + [""] == ["A", ""];
    assert Join(["A", ""], ContextSeparator) == "A" + ContextSeparator;
    assert "A" + ContextSeparator == "A\n\n";
  }
}

=== FILE: contact.dfy ===
/** The contact route (`POST /api/contact`): it sends a test email to check
    the email provider, reads `{ name, email, message }`, requires all
    three to be truthy, and sends the submission to the site owner's inbox.

    The email provider's answers and the parsed body are oracle values in
    the `Request`; `Post` returns the HTTP response together with the trace
    of sends and body reads it performed. */
module ContactRoute {
  import opened Wrappers
  import opened Js
  import opened Http

  const Sender := "Contact Form <contact@gwoollands.com>"
  const Inbox := "contact@gwoollands.com"
  const SubjectPrefix := "New Contact Form Submission from "

  const NotConfiguredMessage := "Email service is not properly configured. Please check your Resend setup."
  const FieldsRequiredMessage := "All fields are required"
  const SendFailedMessage := "Failed to send email. " + TryAgainLater
  const SentMessage := "Email sent successfully"

  /** The email-provider request: sender, recipients, subject, optional
      reply-to address (passed through as given) and HTML body. */
  datatype Email = Email(from: string, to: seq<string>, subject: string, replyTo: Option<Value>, html: string)

  /** The fixed message the preflight check sends. */
  const TestEmail := Email(
    Sender, [Inbox], "Test Email Configuration", None,
    "<p>This is a test email to verify your Resend configuration.</p>")

  /** Outcome of `resend.emails.send(...)`: it resolves with a null
      `error`, resolves with an `error`, or throws. */
  datatype SendOutcome = Delivered | Rejected | SendThrows

  /** Everything the outside world decides about one request: the outcome
      of the preflight send, the parsed body, and the outcome of the real
      send. */
  datatype Request = Request(preflight: SendOutcome, body: RequestBody, dispatch: SendOutcome)

  /** The interactions with the outside world, in the order they happen. */
  datatype Call = Send(email: Email) | ReadBody

  datatype Outcome = Outcome(response: Response, trace: seq<Call>)

  /** The three destructured fields, as whatever values the body holds. */
  datatype Form = Form(name: Value, email: Value, message: Value)

  /** `testEmailConfiguration()`: true only when the test send resolved
      without an error; a returned error and a throw both give false. */
  function TestEmailConfiguration(o: SendOutcome): (configured: bool)
    ensures configured <==> o == Delivered
  {
    match o
    case Delivered => true
    case Rejected => false
    case SendThrows => false
  }

  /** `const { name, email, message } = await request.json()`: None when
      the body is not JSON or is null, where reading or destructuring
      throws. */
  function FormOf(body: RequestBody): (r: Option<Form>)
    ensures r.None? <==> body.Malformed? || body.value.Null? || body.value.Undefined?
    ensures r.Some? ==> Get(body.value, "name") == Some(r.value.name)
                        && Get(body.value, "email") == Some(r.value.email)
                        && Get(body.value, "message") == Some(r.value.message)
  {
    match body
    case Malformed => None
    case Parsed(v) =>
      match Get(v, "name")
      case None => None
      case Some(name) => Some(Form(name, Get(v, "email").value, Get(v, "message").value))
  }

  /** `!(!name || !email || !message)`. */
  predicate Complete(f: Form) {
    Truthy(f.name) && Truthy(f.email) && Truthy(f.message)
  }

  /** The fixed parts of the HTML template, around the three
      interpolations. */
  const HtmlHead :=
    "\n        <div style=\"font-family: Arial, sans-serif; max-width: 600px; margin: 0 auto;\">\n"
    + "          <h2 style=\"color: #333;\">New Contact Form Submission</h2>\n"
    + "          <div style=\"background-color: #f5f5f5; padding: 20px; border-radius: 5px;\">\n"
    + "            <p style=\"margin: 10px 0;\"><strong>Name:</strong> "
  const HtmlAfterName :=
    "</p>\n"
    + "            <p style=\"margin: 10px 0;\"><strong>Email:</strong> "
  const HtmlAfterEmail :=
    "</p>\n"
    + "            <p style=\"margin: 10px 0;\"><strong>Message:</strong></p>\n"
    + "            <div style=\"background-color: white; padding: 15px; border-radius: 5px; margin-top: 10px;\">\n"
    + "              <p style=\"margin: 0; white-space: pre-wrap;\">"
  const HtmlTail :=
    "</p>\n"
    + "            </div>\n"
    + "          </div>\n"
    + "          <p style=\"color: #666; font-size: 12px; margin-top: 20px;\">\n"
    + "            This email was sent from your website's contact form.\n"
    + "          </p>\n"
    + "        </div>\n"
    + "      "

  /** The HTML body: the rendered name, email and message spliced in
      without any escaping. */
  function SubmissionHtml(name: string, email: string, message: string): string {
    HtmlHead + name + HtmlAfterName + email + HtmlAfterEmail + message + HtmlTail
  }

  /** The email sent for a submission. Building it converts each field
      with `String` (the subject and the three HTML slots); None is the
      TypeError a field that cannot be converted throws, before anything
      is sent. */
  function SubmissionEmail(f: Form): (r: Option<Email>)
    ensures r.None? <==> ToString(f.name).None? || ToString(f.email).None? || ToString(f.message).None?
    ensures r.Some? ==>
              var name := ToString(f.name).value;
              var e := r.value;
              e.from == Sender && e.to == [Inbox]
              && |e.subject| == |SubjectPrefix| + |name|
              && e.subject[..|SubjectPrefix|] == SubjectPrefix
              && e.subject[|SubjectPrefix|..] == name
              && e.replyTo == Some(f.email)
              && e.html == SubmissionHtml(name, ToString(f.email).value, ToString(f.message).value)
  {
    match (ToString(f.name), ToString(f.email), ToString(f.message))
    case (Some(name), Some(email), Some(message)) =>
      Some(Email(Sender, [Inbox], SubjectPrefix + name, Some(f.email), SubmissionHtml(name, email, message)))
    case _ => None
  }

  /** The emails among the interactions, in order. */
  function Sends(trace: seq<Call>): seq<Email> {
    if |trace| == 0 then []
    else (if trace[0].Send? then [trace[0].email] else []) + Sends(trace[1..])
  }

  /** An email is among the sends exactly when the trace sends it. */
  lemma {:induction false} SendsExactly(trace: seq<Call>, e: Email)
    ensures e in Sends(trace) <==> Send(e) in trace
  {
    if |trace| > 0 {
      SendsExactly(trace[1..], e);
      assert trace == [trace[0]] + trace[1..];
    }
  }

  /** `POST /api/contact`. */
  function Post(q: Request): (r: Outcome)
    // the preflight send always happens first
    ensures 1 <= |r.trace| <= 3 && r.trace[0] == Send(TestEmail)
    // a failed preflight answers before the body is read
    ensures q.preflight != Delivered ==> r == Outcome(Fail(500, NotConfiguredMessage), [Send(TestEmail)])
    ensures |r.trace| > 1 <==> q.preflight == Delivered
    ensures |r.trace| > 1 ==> r.trace[1] == ReadBody
    // the submission is sent exactly when the form is complete
    ensures |r.trace| == 3 <==>
              q.preflight == Delivered && FormOf(q.body).Some? && Complete(FormOf(q.body).value)
              && SubmissionEmail(FormOf(q.body).value).Some?
    ensures |r.trace| == 3 ==>
              FormOf(q.body).Some? && SubmissionEmail(FormOf(q.body).value).Some?
              && r.trace[2] == Send(SubmissionEmail(FormOf(q.body).value).value)
    // status mapping
    ensures r.response.status == 400 <==>
              q.preflight == Delivered && FormOf(q.body).Some? && !Complete(FormOf(q.body).value)
    ensures r.response.status == 400 ==>
              r == Outcome(Fail(400, FieldsRequiredMessage), [Send(TestEmail), ReadBody])
    ensures r.response.status == 200 <==>
              q.preflight == Delivered && FormOf(q.body).Some? && Complete(FormOf(q.body).value)
              && SubmissionEmail(FormOf(q.body).value).Some? && q.dispatch == Delivered
    ensures r.response.status == 200 ==>
              FormOf(q.body).Some? && SubmissionEmail(FormOf(q.body).value).Some?
              && r.response.payload == MessageBody(SentMessage)
              && Sends(r.trace) == [TestEmail, SubmissionEmail(FormOf(q.body).value).value]
    ensures r.response.status != 200 && r.response.status != 400 ==>
              r.response.status == 500 && r.response.payload.ErrorBody?
  {
    if !TestEmailConfiguration(q.preflight) then
      Outcome(Fail(500, NotConfiguredMessage), [Send(TestEmail)])
    else
      match FormOf(q.body)
      case None => Outcome(Unexpected, [Send(TestEmail), ReadBody])
      case Some(form) =>
        if !Complete(form) then Outcome(Fail(400, FieldsRequiredMessage), [Send(TestEmail), ReadBody])
        else
          match SubmissionEmail(form)
          case None => Outcome(Unexpected, [Send(TestEmail), ReadBody])
          case Some(e) =>
            var calls := [Send(TestEmail), ReadBody, Send(e)];
            match q.dispatch
            case SendThrows => Outcome(Unexpected, calls)
            case Rejected => Outcome(Fail(500, SendFailedMessage), calls)
            case Delivered =>
              assert Sends(calls[2..]) == [e] by {
                assert calls[2..][1..] == [];
              }
              assert Sends(calls[1..]) == [e] by {
                assert calls[1..][1..] == calls[2..];
              }
              Outcome(Response(200, MessageBody(SentMessage)), calls)
  }
}

=== FILE: contact_properties.dfy ===
/** Properties of the contact route that relate several calls or several
    inputs: error precedence against a reference decision table, the
    preflight gate, and the verbatim, unescaped email template. */
module ContactProperties {
  import opened Wrappers
  import opened Js
  import opened Http
  import opened Precedence
  import opened ContactRoute

  // ---------------------------------------------------------------------
  // Error precedence
  // ---------------------------------------------------------------------

  /** The stages that can decide a contact response, in the order the
      handler runs them. */
  datatype Stage = Preflight | Body | Fields | Rendering | Delivery

  const Stages: seq<Stage> := [Preflight, Body, Fields, Rendering, Delivery]

  /** Whether a stage fails, judged from the oracles alone. */
  predicate Fails(q: Request, st: Stage) {
    match st
    case Preflight => q.preflight != Delivered
    case Body => FormOf(q.body).None?
    case Fields => FormOf(q.body).Some? && !Complete(FormOf(q.body).value)
    case Rendering => FormOf(q.body).Some? && SubmissionEmail(FormOf(q.body).value).None?
    case Delivery => q.dispatch != Delivered
  }

  /** The fixed response of each failing stage; a delivery that throws
      lands in the catch-all rather than in the send-failure branch. */
  function ErrorFor(q: Request, st: Stage): Response {
    match st
    case Preflight => Fail(500, NotConfiguredMessage)
    case Body => Unexpected
    case Fields => Fail(400, FieldsRequiredMessage)
    case Rendering => Unexpected
    case Delivery => if q.dispatch == Rejected then Fail(500, SendFailedMessage) else Unexpected
  }

  /** Reference decision table: the first failing stage decides; with no
      failing stage the submission is acknowledged. */
  function Expected(q: Request): Response {
    match FirstFailing(Stages, st => Fails(q, st))
    case Some(st) => ErrorFor(q, st)
    case None => Response(200, MessageBody(SentMessage))
  }

  /** The handler answers exactly as the decision table says. */
  lemma PostFollowsPrecedence(q: Request)
    ensures Post(q).response == Expected(q)
  {
    if Fails(q, Preflight) || Fails(q, Body) {
      EarlyStagesDecide(q);
    } else if Fails(q, Fields) {
      FieldsDecide(q);
    } else if Fails(q, Rendering) {
      RenderingDecides(q);
    } else if Fails(q, Delivery) {
      DeliveryDecides(q);
    } else {
      NoStageFails(q);
    }
  }

  /** The case of PostFollowsPrecedence where the preflight or the body
      fails. */
  lemma EarlyStagesDecide(q: Request)
    requires Fails(q, Preflight) || Fails(q, Body)
    ensures Post(q).response == Expected(q)
  {
    var fails := st => Fails(q, st);
    if fails(Stages[0]) {
      FirstFailingAt(Stages, fails, 0);
    } else {
      FirstFailingAt(Stages, fails, 1);
    }
  }

  /** The case of PostFollowsPrecedence where a field is falsy. */
  lemma FieldsDecide(q: Request)
    requires !Fails(q, Preflight) && !Fails(q, Body) && Fails(q, Fields)
    ensures Post(q).response == Expected(q)
  {
    FirstFailingAt(Stages, st => Fails(q, st), 2);
  }

  /** The case of PostFollowsPrecedence where building the email throws. */
  lemma RenderingDecides(q: Request)
    requires !Fails(q, Preflight) && !Fails(q, Body) && !Fails(q, Fields) && Fails(q, Rendering)
    ensures Post(q).response == Expected(q)
  {
    FirstFailingAt(Stages, st => Fails(q, st), 3);
  }

  /** The case of PostFollowsPrecedence where only the real send fails. */
  lemma DeliveryDecides(q: Request)
    requires !Fails(q, Preflight) && !Fails(q, Body) && !Fails(q, Fields) && !Fails(q, Rendering)
    requires Fails(q, Delivery)
    ensures Post(q).response == Expected(q)
  {
    assert Post(q).response == ErrorFor(q, Delivery);
    FirstFailingAt(Stages, st => Fails(q, st), 4);
  }

  /** The case of PostFollowsPrecedence where no stage fails. */
  lemma NoStageFails(q: Request)
    requires forall st :: !Fails(q, st)
    ensures Post(q).response == Expected(q)
  {
  }

  // ---------------------------------------------------------------------
  // Preflight gate and validation
  // ---------------------------------------------------------------------

  /** A failed preflight decides the response on its own: the body and
      the real send have no influence, and only the test email is sent. */
  lemma PreflightFailureIgnoresPayload(q1: Request, q2: Request)
    requires q1.preflight == q2.preflight
    requires q1.preflight != Delivered
    ensures Post(q1) == Post(q2)
    ensures Sends(Post(q1).trace) == [TestEmail]
  {
    assert Post(q1).trace == [Send(TestEmail)];
    assert [Send(TestEmail)][1..] == [];
  }

  /** An empty name with the other fields filled is rejected with 400
      after the preflight send, whatever the real send would have done. */
  lemma EmptyNameRejected(d: SendOutcome)
    ensures Post(Request(Delivered,
                         Parsed(Obj(map["name" := Str(""), "email" := Str("a@b.com"), "message" := Str("hi")])),
                         d))
            == Outcome(Fail(400, FieldsRequiredMessage), [Send(TestEmail), ReadBody])
  {
  }

  /** A complete submission with a working provider is accepted, with
      exactly the test email and the submission sent. */
  lemma CompleteSubmissionAccepted(name: string, email: string, message: string)
    requires name != "" && email != "" && message != ""
    ensures var form := Form(Str(name), Str(email), Str(message));
            var q := Request(Delivered,
                             Parsed(Obj(map["name" := Str(name), "email" := Str(email), "message" := Str(message)])),
                             Delivered);
            Post(q).response == Response(200, MessageBody(SentMessage))
            && Sends(Post(q).trace) == [TestEmail, SubmissionEmail(form).value]
  {
    var form := Form(Str(name), Str(email), Str(message));
    var body := Parsed(Obj(map["name" := Str(name), "email" := Str(email), "message" := Str(message)]));
    assert FormOf(body) == Some(form);
    assert Complete(form);
    assert SubmissionEmail(form).Some?;
  }

  /** A field missing from the body reads as undefined, which is falsy:
      the form is rejected with 400 and nothing more is sent. */
  lemma AbsentFieldRejected(fields: map<string, Value>, d: SendOutcome)
    requires "name" !in fields || "email" !in fields || "message" !in fields
    ensures Post(Request(Delivered, Parsed(Obj(fields)), d))
            == Outcome(Fail(400, FieldsRequiredMessage), [Send(TestEmail), ReadBody])
  {
  }

  /** A truthy name that `String` cannot convert (an object with an own
      `toString` key) makes building the subject throw: the catch-all
      answers, and only the test email was sent. */
  lemma UnconvertibleNameIsUnexpected(key: Value, d: SendOutcome)
    ensures Post(Request(Delivered,
                         Parsed(Obj(map["name" := Obj(map["toString" := key]),
                                        "email" := Str("a@b.c"), "message" := Str("hi")])),
                         d))
            == Outcome(Unexpected, [Send(TestEmail), ReadBody])
  {
  }

  // ---------------------------------------------------------------------
  // The submission email
  // ---------------------------------------------------------------------

  /** `h` is `a + x + b + y + c + z + d`, read back piece by piece: each
      piece sits at the offset the lengths of the earlier ones give. */
  predicate Spliced(h: string, a: string, x: string, b: string, y: string, c: string, z: string, d: string) {
    var i := |a|;
    var j := i + |x| + |b|;
    var k := j + |y| + |c|;
    |h| == k + |z| + |d|
    && h[..i] == a
    && h[i..i + |x|] == x
    && h[j..j + |y|] == y
    && h[k..k + |z|] == z
    && h[k + |z|..] == d
  }

  /** Each piece of a seven-part concatenation sits at its offset. */
  lemma SpliceSlots(a: string, x: string, b: string, y: string, c: string, z: string, d: string)
    ensures Spliced(a + x + b + y + c + z + d, a, x, b, y, c, z, d)
  {
    var h := a + x + b + y + c + z + d;
    var p1 := a + x + b;
    var p2 := p1 + y + c;
    var p3 := p2 + z;
    assert h == p3 + d;
    assert h[..|p3|] == p3;
    assert h[..|p2|] == p2;
    assert h[..|p1|] == p1;
  }

  /** The HTML body is the fixed template with the rendered name, email
      and message spliced in verbatim at their slots; nothing is escaped. */
  lemma HtmlEmbedsFieldsVerbatim(name: string, email: string, message: string)
    ensures Spliced(SubmissionHtml(name, email, message), HtmlHead, name, HtmlAfterName, email,
                    HtmlAfterEmail, message, HtmlTail)
  {
    SpliceSlots(HtmlHead, name, HtmlAfterName, email, HtmlAfterEmail, message, HtmlTail);
  }
}

=== FILE: http.dfy ===
/** The request/response framing shared by both route handlers, reduced to
    what the handlers observe: whether the JSON body could be read, and the
    status plus JSON payload they answer with. */
module Http {
  import opened Js

  /** Outcome of `await req.json()`: either the body is not valid JSON (the
      call throws) or it parses to a JavaScript value. */
  datatype RequestBody = Malformed | Parsed(value: Value)

  /** The three payload shapes the handlers answer with. */
  datatype Payload =
    | ErrorBody(error: string)
    | ResponseBody(response: Value)
    | MessageBody(message: string)

  /** `NextResponse.json(payload, { status })`. */
  datatype Response = Response(status: int, payload: Payload)

  /** The closing sentence most error messages share. */
  const TryAgainLater := "Please try again later."

  /** Message of the catch-all handler both routes install around their body. */
  const UnexpectedMessage := "An unexpected error occurred. " + TryAgainLater

  /** A failure response with the given status and error text. */
  function Fail(status: int, error: string): Response {
    Response(status, ErrorBody(error))
  }

  /** Answer of the outermost `catch` of either route. */
  const Unexpected := Fail(500, UnexpectedMessage)
}

=== FILE: js.dfy ===
/** The slice of JavaScript value semantics the two route handlers rely on:
    values produced by `JSON.parse` (plus `undefined`), truthiness (`!v`,
    `v || d`, `filter(Boolean)`), property reads, `String(v)` as used by
    template literals, and `Array.prototype.join`. */
module Js {
  import opened Wrappers

  /** A JavaScript value. `Num` carries the decimal text JavaScript's
      Number-to-String conversion yields for it (so `0` and `-0` both carry
      "0"); floating-point arithmetic itself is not modelled. `JSON.parse`
      never yields `undefined` or `NaN`; `undefined` is what reading a
      missing property gives. */
  datatype Value =
    | Undefined
    | Null
    | Bool(b: bool)
    | Num(text: string)
    | Str(s: string)
    | Arr(items: seq<Value>)
    | Obj(fields: map<string, Value>)

  /** JavaScript's ToBoolean: the values `!v` maps to false. */
  predicate Truthy(v: Value) {
    match v
    case Undefined => false
    case Null => false
    case Bool(b) => b
    case Num(t) => t != "0"
    case Str(s) => s != ""
    case Arr(_) => true
    case Obj(_) => true
  }

  /** The falsy values are exactly undefined, null, false, 0 and "". */
  lemma FalsyValues(v: Value)
    ensures !Truthy(v) <==> v in {Undefined, Null, Bool(false), Num("0"), Str("")}
  {
  }

  /** `v.key`, including the destructuring `const { key } = v`. None is the
      TypeError thrown when `v` is null or undefined. Only own properties
      are modelled: none of the keys the handlers read is inherited by a
      value `JSON.parse` can produce. */
  function Get(v: Value, key: string): (r: Option<Value>)
    ensures r.None? <==> v.Undefined? || v.Null?
    ensures v.Obj? && key in v.fields ==> r == Some(v.fields[key])
    ensures !v.Undefined? && !v.Null? && !(v.Obj? && key in v.fields) ==> r == Some(Undefined)
  {
    match v
    case Undefined => None
    case Null => None
    case Obj(fields) => Some(if key in fields then fields[key] else Undefined)
    case _ => Some(Undefined)
  }

  /** `v?.key`: optional chaining short-circuits to undefined instead of
      throwing. */
  function GetOptional(v: Value, key: string): (r: Value)
    ensures Get(v, key).Some? ==> r == Get(v, key).value
    ensures Get(v, key).None? ==> r == Undefined
  {
    Get(v, key).GetOr(Undefined)
  }

  /** Whether `String(v)` returns rather than throws. An object that
      `JSON.parse` produced with an own `toString` key has no callable
      `toString` or `valueOf` returning a primitive, so converting it
      throws a TypeError; an array throws when one of its elements does. */
  predicate Renderable(v: Value)
    decreases v
  {
    match v
    case Obj(fields) => "toString" !in fields
    case Arr(items) => forall i :: 0 <= i < |items| ==> Renderable(items[i])
    case _ => true
  }

  /** `String(v)` for a value that converts. */
  function Render(v: Value): string
    requires Renderable(v)
    decreases v, 0
  {
    match v
    case Undefined => "undefined"
    case Null => "null"
    case Bool(b) => if b then "true" else "false"
    case Num(t) => t
    case Str(s) => s
    case Arr(items) => Join(seq(|items|, i requires 0 <= i < |items| => Item(items[i])), ",")
    case Obj(_) => "[object Object]"
  }

  /** How `Array.prototype.join` converts one element: null and undefined
      become the empty string, anything else goes through `String`. */
  function Item(v: Value): string
    requires Renderable(v)
    decreases v, 1
  {
    if v.Undefined? || v.Null? then "" else Render(v)
  }

  /** The elements of an array as `join` converts them. */
  function Rendered(vs: seq<Value>): (r: seq<string>)
    requires forall i :: 0 <= i < |vs| ==> Renderable(vs[i])
    ensures |r| == |vs|
    ensures forall i :: 0 <= i < |vs| && (vs[i].Undefined? || vs[i].Null?) ==> r[i] == ""
    ensures forall i :: 0 <= i < |vs| && !vs[i].Undefined? && !vs[i].Null? ==> ToString(vs[i]) == Some(r[i])
  {
    seq(|vs|, i requires 0 <= i < |vs| => Item(vs[i]))
  }

  /** `String(v)`, which is what `${v}` in a template literal applies; None
      is the TypeError it throws. */
  function ToString(v: Value): (r: Option<string>)
    decreases v
    ensures v.Str? ==> r == Some(v.s)
    ensures v.Num? ==> r == Some(v.text)
    ensures v.Obj? ==> (r.None? <==> "toString" in v.fields)
  {
    if Renderable(v) then Some(Render(v)) else None
  }

  /** An array converts iff each of its elements does, and then it is its
      elements joined with ",". */
  lemma ArrayToString(items: seq<Value>)
    ensures ToString(Arr(items)).None? <==> exists i :: 0 <= i < |items| && ToString(items[i]).None?
    ensures ToString(Arr(items)) == JoinValues(items, ",")
  {
  }

  /** `vs.join(sep)` over arbitrary values; None when converting an element
      throws. */
  function JoinValues(vs: seq<Value>, sep: string): Option<string> {
    if forall i :: 0 <= i < |vs| ==> Renderable(vs[i]) then Some(Join(Rendered(vs), sep)) else None
  }

  /** Joining throws exactly when converting some element throws. */
  lemma JoinValuesThrows(vs: seq<Value>, sep: string)
    ensures JoinValues(vs, sep).None? <==> exists i :: 0 <= i < |vs| && ToString(vs[i]).None?
  {
  }

  /** The conversion `join` applies distributes over concatenation. */
  lemma RenderedConcat(a: seq<Value>, b: seq<Value>)
    requires forall i :: 0 <= i < |a| ==> Renderable(a[i])
    requires forall i :: 0 <= i < |b| ==> Renderable(b[i])
    ensures forall i :: 0 <= i < |a + b| ==> Renderable((a + b)[i])
    ensures Rendered(a + b) == Rendered(a) + Rendered(b)
  {
    assert forall i :: 0 <= i < |a + b| ==> (a + b)[i] == (if i < |a| then a[i] else b[i - |a|]);
  }

  /** `parts.join(sep)` over strings: the separator goes between adjacent
      parts only. */
  function Join(parts: seq<string>, sep: string): string {
    if |parts| == 0 then ""
    else if |parts| == 1 then parts[0]
    else parts[0] + sep + Join(parts[1..], sep)
  }

  /** Appending one more part extends the joined text by one separator and
      that part, so the parts appear in their original order. */
  lemma {:induction false} JoinAppend(parts: seq<string>, last: string, sep: string)
    requires |parts| > 0
    ensures Join(parts + [last], sep) == Join(parts, sep) + sep + last
  {
    if |parts| == 1 {
      assert parts + [last] == [parts[0], last];
    } else {
      assert (parts + [last])[1..] == parts[1..] + [last];
      JoinAppend(parts[1..], last, sep);
    }
  }

  /** Joining a concatenation is joining each side with one separator in
      between. */
  lemma {:induction false} JoinConcat(left: seq<string>, right: seq<string>, sep: string)
    requires |left| > 0 && |right| > 0
    ensures Join(left + right, sep) == Join(left, sep) + sep + Join(right, sep)
  {
    if |left| == 1 {
      assert (left + right)[1..] == right;
    } else {
      assert (left + right)[1..] == left[1..] + right;
      JoinConcat(left[1..], right, sep);
    }
  }

  /** A non-empty join begins with the first part and ends with the last
      one: no separator is emitted before the first part or after the last. */
  lemma {:induction false} JoinFrames(parts: seq<string>, sep: string)
    requires |parts| > 0
    ensures |Join(parts, sep)| >= |parts[0]| && |Join(parts, sep)| >= |parts[|parts| - 1]|
    ensures Join(parts, sep)[..|parts[0]|] == parts[0]
    ensures Join(parts, sep)[|Join(parts, sep)| - |parts[|parts| - 1]|..] == parts[|parts| - 1]
  {
    if |parts| > 1 {
      JoinFrames(parts[1..], sep);
      var rest := Join(parts[1..], sep);
      assert Join(parts, sep) == parts[0] + sep + rest;
      assert parts[1..][|parts[1..]| - 1] == parts[|parts| - 1];
    }
  }

  /** The joined text has the parts' lengths plus one separator per gap. */
  lemma {:induction false} JoinLength(parts: seq<string>, sep: string)
    requires |parts| > 0
    ensures |Join(parts, sep)| == TotalLength(parts) + (|parts| - 1) * |sep|
  {
    if |parts| > 1 {
      JoinLength(parts[1..], sep);
    }
  }

  /** Sum of the lengths of the parts. */
  function TotalLength(parts: seq<string>): nat {
    if |parts| == 0 then 0 else |parts[0]| + TotalLength(parts[1..])
  }

  /** Over non-empty parts, the join is empty exactly when there are no
      parts; in particular it is never a lone separator. */
  lemma JoinEmptyIff(parts: seq<string>, sep: string)
    requires forall i :: 0 <= i < |parts| ==> parts[i] != ""
    ensures Join(parts, sep) == "" <==> |parts| == 0
  {
    if |parts| > 0 {
      JoinFrames(parts, sep);
      assert parts[0] != "";
    }
  }

  /** Joining a concatenation of values throws iff joining either side
      does; otherwise, with both sides non-empty, it is the two joins with
      one separator in between. */
  lemma JoinValuesConcat(a: seq<Value>, b: seq<Value>, sep: string)
    ensures JoinValues(a + b, sep).None? <==> JoinValues(a, sep).None? || JoinValues(b, sep).None?
    ensures JoinValues(a + b, sep).Some? && |a| > 0 && |b| > 0 ==>
              JoinValues(a + b, sep).value == JoinValues(a, sep).value + sep + JoinValues(b, sep).value
  {
    assert forall i :: 0 <= i < |a| ==> (a + b)[i] == a[i];
    assert forall i :: 0 <= i < |b| ==> (a + b)[|a| + i] == b[i];
    if JoinValues(a, sep).Some? && JoinValues(b, sep).Some? {
      RenderedConcat(a, b);
      if |a| > 0 && |b| > 0 {
        JoinConcat(Rendered(a), Rendered(b), sep);
      }
    }
  }

  /** Joining a single value converts it as `String` does, except that
      null and undefined give "". */
  lemma JoinValuesOne(v: Value, sep: string)
    ensures !v.Undefined? && !v.Null? ==> JoinValues([v], sep) == ToString(v)
    ensures v.Undefined? || v.Null? ==> JoinValues([v], sep) == Some("")
  {
    if Renderable(v) {
      assert Rendered([v]) == [Item(v)];
    } else {
      assert ToString([v][0]).None?;
    }
  }
}

=== FILE: precedence.dfy ===
/** Error precedence as a reference definition: given the stages of a
    handler in the order it runs them and a test for "this stage fails",
    the stage that decides the response is the first failing one. */
module Precedence {
  import opened Wrappers

  /** The first element of `stages` satisfying `fails`, if any. */
  function FirstFailing<T>(stages: seq<T>, fails: T -> bool): (r: Option<T>)
    ensures r.None? <==> forall i :: 0 <= i < |stages| ==> !fails(stages[i])
    ensures r.Some? ==> exists i :: 0 <= i < |stages| && stages[i] == r.value && fails(stages[i])
                          && forall j :: 0 <= j < i ==> !fails(stages[j])
  {
    if |stages| == 0 then None
    else if fails(stages[0]) then Some(stages[0])
    else
      var rest := FirstFailing(stages[1..], fails);
      assert rest.Some? ==> exists i :: 1 <= i < |stages| && stages[i] == rest.value && fails(stages[i])
                              && forall j :: 0 <= j < i ==> !fails(stages[j]) by {
        if rest.Some? {
          var k :| 0 <= k < |stages[1..]| && stages[1..][k] == rest.value && fails(stages[1..][k])
                   && forall j :: 0 <= j < k ==> !fails(stages[1..][j]);
          assert forall j :: 0 <= j < k + 1 ==> !fails(stages[j]) by {
            forall j | 0 <= j < k + 1 ensures !fails(stages[j]) {
              if j > 0 { assert stages[j] == stages[1..][j - 1]; }
            }
          }
          assert stages[k + 1] == rest.value;
        }
      }
      rest
  }

  /** When stage `i` is the first that fails, it is the one reported. */
  lemma FirstFailingAt<T>(stages: seq<T>, fails: T -> bool, i: int)
    requires 0 <= i < |stages| && fails(stages[i])
    requires forall j :: 0 <= j < i ==> !fails(stages[j])
    ensures FirstFailing(stages, fails) == Some(stages[i])
  {
    var r := FirstFailing(stages, fails);
    assert r.Some?;
    var k :| 0 <= k < |stages| && stages[k] == r.value && fails(stages[k])
             && forall j :: 0 <= j < k ==> !fails(stages[j]);
    assert k == i;
  }
}

=== FILE: seqs.dfy ===
/** Sequence combinators over an arbitrary element function. */
module Seqs {

  /** Each element mapped to a (possibly empty) run of results, the runs
      concatenated in order: `map` followed by `filter` is the case of
      runs of length at most one. */
  function FlatMap<T, U>(xs: seq<T>, f: T -> seq<U>): seq<U> {
    if |xs| == 0 then [] else f(xs[0]) + FlatMap(xs[1..], f)
  }

  /** FlatMap distributes over concatenation, keeping the order. */
  lemma {:induction false} FlatMapConcat<T, U>(a: seq<T>, b: seq<T>, f: T -> seq<U>)
    ensures FlatMap(a + b, f) == FlatMap(a, f) + FlatMap(b, f)
  {
    if |a| == 0 {
      assert a + b == b;
    } else {
      assert (a + b)[0] == a[0];
      assert (a + b)[1..] == a[1..] + b;
      FlatMapConcat(a[1..], b, f);
    }
  }

  /** A single element yields exactly its own run. */
  lemma FlatMapOne<T, U>(x: T, f: T -> seq<U>)
    ensures FlatMap([x], f) == f(x)
  {
    assert [x][1..] == [];
    assert FlatMap([x], f) == f(x) + FlatMap([x][1..], f);
  }

  /** Where no element yields anything, nothing is yielded. */
  lemma {:induction false} FlatMapNothing<T, U>(xs: seq<T>, f: T -> seq<U>)
    requires forall i :: 0 <= i < |xs| ==> f(xs[i]) == []
    ensures FlatMap(xs, f) == []
  {
    if |xs| > 0 {
      FlatMapNothing(xs[1..], f);
    }
  }

  /** Every result comes from some element's run. */
  lemma {:induction false} FlatMapFrom<T, U>(xs: seq<T>, f: T -> seq<U>, p: U -> bool)
    requires forall i, j :: 0 <= i < |xs| && 0 <= j < |f(xs[i])| ==> p(f(xs[i])[j])
    ensures forall k :: 0 <= k < |FlatMap(xs, f)| ==> p(FlatMap(xs, f)[k])
  {
    if |xs| > 0 {
      FlatMapFrom(xs[1..], f, p);
      var rest := FlatMap(xs[1..], f);
      forall k | 0 <= k < |FlatMap(xs, f)| ensures p(FlatMap(xs, f)[k]) {
        if k < |f(xs[0])| {
          assert FlatMap(xs, f)[k] == f(xs[0])[k];
        } else {
          assert FlatMap(xs, f)[k] == rest[k - |f(xs[0])|];
        }
      }
    }
  }

  /** When each element maps to at most one output, there are at most as
      many outputs as elements. */
  lemma {:induction false} FlatMapAtMostOne<T, U>(xs: seq<T>, f: T -> seq<U>)
    requires forall i :: 0 <= i < |xs| ==> |f(xs[i])| <= 1
    ensures |FlatMap(xs, f)| <= |xs|
  {
    if |xs| > 0 {
      assert forall i :: 0 <= i < |xs[1..]| ==> xs[1..][i] == xs[i + 1];
      FlatMapAtMostOne(xs[1..], f);
    }
  }
}

=== FILE: wrappers.dfy ===
/** Optional values, used for "absent" environment variables and for
    operations that may throw. */
module Wrappers {

  datatype Option<+T> = None | Some(value: T) {

    /** Returns the value in Some, or `default` when None. */
    function GetOr(default: T): T {
      match this
      case Some(v) => v
      case None => default
    }
  }
}
